=== FILE: README.md ===
# Cut-list utilities in Dafny

A model of `SteveR::CutList` in `sr_cutlist/cutlistutl.rb`, the utility module of a SketchUp cut-list plugin. It covers:

- the text sanitisers `string_to_html`, `string_to_clp` and `string_to_csv`;
- the fixed-width integer formatter `integer_to_fws`;
- the decimal-notation cache: `initialiseDecimalNotation`, `decimalNotationInitialised?`, `decimalNotation` and `decimal_to_comma`, which reads the cache;
- the reverse lookup `group_definition`.

Files and modules:

- `strings.dfy` (`Strings`): character classes and `Gsub`. `Gsub` models Ruby's `gsub` with a one-character class, which is the only rewriting primitive the module uses.
- `sanitizer.dfy` (`Sanitizer`): `string_to_html` and `string_to_clp`.
  - Both are modelled as the source writes them: a chain of `gsub` passes.
  - Each is paired with an inverse (`HtmlUnescape`, `CollapseQuotes`), and a round-trip lemma connects the two.
  - `string_to_html` is also paired with a one-pass reference map (`HtmlEscapeEach`).
- `csv.dfy` (`Csv`): `string_to_csv`.
  - The regular expression `/(\S*\s)*(\d+\/\d+)(\D*)$/` is modelled by three things: the languages of its parts, the leftmost-start rule, and the greedy preference of `*`. A greedy `*` sets group 1 whenever some match repeats it.
  - A lemma proves that the source's test ("match, and group 1 is `nil`") equals a plain condition on suffixes: the text ends in a fraction with an optional digit-free unit, and no such fraction suffix follows whitespace.
- `numeric.dfy` (`Numeric`): `integer_to_fws` over `n.to_s`, with a digit-value reading as its inverse.
- `host.dfy` (`HostModel`): the part of the SketchUp model the probe touches, as an immutable value.
  - It holds the definitions with their instances, and the entity list.
  - Object identity is a fresh numeric id.
  - Adding and erasing an instance are pure transitions; `group_definition` is a search over this value.
- `notation.dfy` (`Notation`): the `@@decimalNotation` class variable, made a field of an explicit `Session`.
  - Every operation returns the new session, the ordered list of host calls it made, and how it ended.
  - The probe's `nil.bounds` failure is modelled as a `NoMethodError` exit.
- `wrappers.dfy` (`Wrappers`): `Option`.

The code is followed where it departs from its own comments:

- The comment on `integer_to_fws` says it truncates a number too wide for the field. `"%0Nd"` never truncates, and `Numeric.IntegerToFwsNeverTruncates` states this.
- `string_to_csv` puts `"0 "` in front of the original text rather than the tilde-free one (see Findings).
- `initialiseDecimalNotation` has no `ensure`. The model keeps the resulting exit path and proves it cannot be reached from the probe.

## Model

| member | source | states |
|---|---|---|
| Sanitizer.StringToHtmlIsCharMap | sr_cutlist/cutlistutl.rb:145-155 | The ordered seven-pass chain equals escaping each character on its own. `&` becomes `&amp;`, space `&#32;`, `'` `&#39;`, `"` `&quot;`, `<` `&lt;`, `>` `&gt;`, `-` `&#45;`; every other character is kept. Doing `&` first means no reference is escaped twice. |
| Sanitizer.StringToHtmlRoundTrip | sr_cutlist/cutlistutl.rb:145-155 | Escaping loses nothing: decoding the seven references in the output gives back the input, for every input. |
| Sanitizer.StringToHtmlNoRawSpecials | sr_cutlist/cutlistutl.rb:148-153 | No space, apostrophe, double quote, `<`, `>` or `-` appears raw in the output. |
| Sanitizer.StringToHtmlAmpersandExample | sr_cutlist/cutlistutl.rb:146 | An `&` between two ordinary characters becomes `&amp;` and nothing else changes (`"a&b"` gives `"a&amp;b"`). |
| Sanitizer.StringToClp | sr_cutlist/cutlistutl.rb:162-165 | The output is longer than the input by exactly the number of `"` in it. |
| Sanitizer.StringToClpRoundTrip | sr_cutlist/cutlistutl.rb:163 | Collapsing every `""` pair of the output back to one `"` gives the input. The doubling is reversible. |
| Sanitizer.StringToClpKeepsOthers | sr_cutlist/cutlistutl.rb:163-164 | The output has twice as many `"` as the input. With the quotes removed, both read the same; tildes are kept because their removal is commented out. |
| Csv.FirstMatchFrom | sr_cutlist/cutlistutl.rb:188-189 | `String#match` takes the leftmost start at which the pattern matches to the end of the text. The result is such a start, no earlier one matches, and there is no result exactly when no start matches. |
| Csv.Match | sr_cutlist/cutlistutl.rb:188-189 | `val.match(pattern)` is `nil` exactly when no start matches. Otherwise it reports the leftmost matching start, and `match[1]` is set exactly when some match from that start repeats group 1 at least once. |
| Csv.ZeroPrefixCharacterisation | sr_cutlist/cutlistutl.rb:188-200 | There is a match with `match[1] == nil` if and only if the text ends in digits `/` digits followed by a digit-free unit, and no such fraction suffix follows a whitespace character. |
| Csv.StringToCsvCases | sr_cutlist/cutlistutl.rb:175-207 | The result is `"0 "` + input exactly when the tilde-free text passes that test. Otherwise it is the tilde-free text, which contains no `~`. |
| Csv.StringToCsvBareFraction | sr_cutlist/cutlistutl.rb:200-201 | A fraction less than one written bare, with a digit-free unit, gets the `"0 "` prefix (`"1/2 in"` gives `"0 1/2 in"`). |
| Csv.StringToCsvMixedNumber | sr_cutlist/cutlistutl.rb:180-206 | A fraction after whitespace is the tail of a mixed number, and the text comes back unchanged (`"3 1/2 in"`). |
| Csv.StringToCsvNoFraction | sr_cutlist/cutlistutl.rb:176-178 | A text without `/` only loses its tildes. |
| Csv.StringToCsvKeepsTilde | sr_cutlist/cutlistutl.rb:201 | As written, the prefix goes before the original text, so a removed tilde comes back (`"~1/2"` gives `"0 ~1/2"`). |
| Csv.StringToCsvIntended | sr_cutlist/cutlistutl.rb:167-178 | Corrected `string_to_csv`: the result never contains `~`, as step 1 of the method's comment promises. |
| Csv.StringToCsvIntendedSpec | sr_cutlist/cutlistutl.rb:175-207 | The corrected version prefixes the tilde-free text exactly when the source's test passes. On texts without `~` it agrees with the source. |
| Numeric.IntegerToFws | sr_cutlist/cutlistutl.rb:140-142 | The field is all digits, and its length is the larger of the width and the number of digits of the integer. |
| Numeric.DigitsRoundTrip | sr_cutlist/cutlistutl.rb:141 | `to_s` of a non-negative integer reads back as the same integer. |
| Numeric.IntegerToFwsRoundTrip | sr_cutlist/cutlistutl.rb:141 | Reading the field gives back the integer: padding only adds leading zeros. |
| Numeric.IntegerToFwsNeverTruncates | sr_cutlist/cutlistutl.rb:138-142 | The field ends with every digit of the integer and starts with `'0'`s only. It is never narrower than the width or than the number. |
| Numeric.IntegerToFwsExamples | sr_cutlist/cutlistutl.rb:141 | Width 3 and 7 give `"007"`; width 2 and 12345 give `"12345"`. |
| HostModel.NewInstance | sr_cutlist/cutlistutl.rb:81 | `add_instance` creates an instance no other entity or definition instance shares, of the kind its definition creates. |
| HostModel.AddInstance | sr_cutlist/cutlistutl.rb:81 | After `add_instance` the new instance is appended to the model's entities and to the instances of its definition. Every other definition, and that definition's kind and width, are unchanged. |
| HostModel.Erase | sr_cutlist/cutlistutl.rb:121 | After `erase_entities(x)`, `x` is neither an entity nor an instance of any definition. Every other entity and instance stays, and each definition keeps its kind and width. |
| HostModel.EraseUndoesAdd | sr_cutlist/cutlistutl.rb:81-121 | Erasing the instance just added gives back exactly the host before the add. |
| HostModel.GroupDefinition | sr_cutlist/cutlistutl.rb:233-243 | The result is the first definition that lists the instance as a `"Group"`: no earlier definition lists it. The result is `nil` exactly when no definition does. |
| HostModel.GroupDefinitionFindsOwner | sr_cutlist/cutlistutl.rb:233-243 | When every instance has a single owning definition, the lookup returns the owner of a group instance. |
| HostModel.GroupDefinitionOfNewInstance | sr_cutlist/cutlistutl.rb:81-90 | A group instance just placed from a definition is found in that definition, because its identity is fresh. |
| Notation.Measure | sr_cutlist/cutlistutl.rb:103-121 | Once a bounding box is known, the probe ends normally. The cache becomes `","` exactly when the width text has a comma between two digits, and `"."` otherwise. The host afterwards is the host with only the temporary instance erased. The calls are the earlier ones, then the width rendering, then the erasure of that instance. |
| Notation.Initialised | sr_cutlist/cutlistutl.rb:124-126 | `decimalNotationInitialised?` holds exactly when the cached separator text is not empty. |
| Notation.MeasureGroup | sr_cutlist/cutlistutl.rb:88-91 | The group branch ends in `NoMethodError` exactly when `group_definition` returns `nil`. |
| Notation.Initialise | sr_cutlist/cutlistutl.rb:62-122 | The probe always leaves the cache set to `"."` or `","`. Its first two host operations read the entity collection and then the definitions, on every path. |
| Notation.InitialiseNeverRaises | sr_cutlist/cutlistutl.rb:84-91 | The probe ends normally on every host. Its own group instance is always found by `group_definition`, so `bounds` is never sent to `nil`. |
| Notation.InitialiseRestoresHost | sr_cutlist/cutlistutl.rb:66-121 | On every path the temporary instance is erased again. The model's entities and definitions are left exactly as they were. |
| Notation.InitialiseDetects | sr_cutlist/cutlistutl.rb:69-118 | The cache becomes `","` if and only if there are three conditions: a first definition exists; it yields a component instance or a group; and its rendered width shows a comma between two digits. Otherwise it becomes `"."`. |
| Notation.InitialiseCalls | sr_cutlist/cutlistutl.rb:69-121 | With no definition, the probe only reads the two collections. Otherwise it adds one instance third, erases that same instance last, and adds or erases nothing in between. |
| Notation.MeasureGroupLeaksOnFailedLookup | sr_cutlist/cutlistutl.rb:88-90 | As written, a failed group lookup raises with the temporary instance still in the model. Nothing erases it on the way out. |
| Notation.DecimalNotation | sr_cutlist/cutlistutl.rb:124-131 | After a call the cache is initialised. When it already was, the call answers from the cache with no host operation and no change. When it was not, the call is exactly a run of `initialiseDecimalNotation`. |
| Notation.DecimalNotationFirstCall | sr_cutlist/cutlistutl.rb:128-131 | On an unset cache the first call probes the host. It ends normally, leaves the model as it was, and starts by reading the entities and definitions. It caches `","` exactly when the first definition yields a component or group whose rendered width has a comma between digits. |
| Notation.DecimalNotationTwice | sr_cutlist/cutlistutl.rb:124-131 | The first call ends normally and restores the model. A second call makes no host call and changes nothing. |
| Notation.DecimalToComma | sr_cutlist/cutlistutl.rb:209-222 | When no `.` sits between two digits, the text comes back unchanged and neither the cache nor the host is touched. |
| Notation.DecimalToCommaReplaces | sr_cutlist/cutlistutl.rb:211-218 | On a match the separator is looked up through `decimalNotation`. Every `.`, between digits or not, becomes the cached separator; the other characters and the length are kept. |
| Notation.DecimalToCommaDotIsIdentity | sr_cutlist/cutlistutl.rb:214 | With `"."` as the detected separator the conversion changes nothing. |
| Notation.DecimalToCommaExample | sr_cutlist/cutlistutl.rb:209-218 | With `","` cached, `"12.5"` becomes `"12,5"` without a host call. |

## Left out

- `float_round_to` (lines 134-136): floating-point rounding is not modelled.
- `metricModel?` and `modelInMeters?` (lines 38-51): reads of a host option that nothing in the core depends on.
- `verbose1`, `verbose`, `verboseComponentDiscovery`, `verbosePartPlacement`, `verboseParameters` and `version`: constant answers.
- `puts` diagnostics.
- The SketchUp API:
  - Rendering a bounding-box width (`bounds.width.inch.to_l.to_s`) is an uninterpreted text stored in each definition.
  - The transformation passed to `add_instance` is not modelled.
  - The host's choice of new object identity is modelled as one more than the largest id in use.
- Numeric.IntegerToFws: only non-negative integers and widths are modelled. Ruby's handling of a minus sign and of a negative width is left out.
- Notation.Initialise: the interpreter is assumed to be Ruby 2.2 to 2.7, where the constant `NIL` tested at line 71 is `nil`. On a Ruby that no longer defines `NIL` (it was deprecated in 2.4), line 71 raises `NameError` on every call. That happens after line 66 has set the cache to `"."` and before any instance is added. This path is not modelled, so `Notation.InitialiseNeverRaises`, `Notation.InitialiseDetects` and `Notation.DecimalNotationFirstCall` hold only on those versions.
- Strings.IsSpace: `\s` includes the vertical tab, as in Ruby 2.2 and later.
- Csv.StringToCsv: `$` is read as the end of the text. Ruby's `$` also matches before a line feed inside the text, and that case is not modelled. `\d` and `\s` are the ASCII classes.
- Sanitizer.StringToHtmlAmpersandExample: the `"a&b"` example is stated for every pair of ordinary characters, not for the literal string.
- Csv.StringToCsvBareFraction, Csv.StringToCsvMixedNumber, Csv.StringToCsvKeepsTilde: likewise stated for every digit string and digit-free unit, not for one literal text.

## Findings

| source | as written | input that shows it | evidently intended | confidence | as-written member | corrected member |
|---|---|---|---|---|---|---|
| sr_cutlist/cutlistutl.rb:201 | `val = "0 " + string` prefixes the original text, so the tildes that step 1 removed come back | `"~1/2"` gives `"0 ~1/2"` | `"0 " + val`, giving `"0 1/2"`: tildes removed, as the method's comment states | medium, not executed | Csv.StringToCsvKeepsTilde | Csv.StringToCsvIntended |

=== FILE: csv.dfy ===
/**
 `string_to_csv`: tilde removal followed by the mixed-number fix-up driven by
 the regular expression `/(\S*\s)*(\d+\/\d+)(\D*)$/`.

 The regular expression is modelled by the languages of its parts, by the
 leftmost-start rule of the Ruby engine, and by the backtracking order of a
 greedy `*`, which tries one more iteration before it tries to stop. `$` is
 read as the end of the text.
 */
module Csv {
  import opened Strings
  import opened Wrappers

  /* ---------------- the parts of the pattern ---------------- */

  /** `t` splits at the slash `i` and the unit start `j` as digits, `/`, digits, non-digits. */
  predicate FractionAt(t: string, i: nat, j: nat) {
    0 < i < |t| && i + 1 < j <= |t|
    && AllDigits(t[..i]) && t[i] == '/' && AllDigits(t[i + 1..j]) && NoDigits(t[j..])
  }

  /** `t` is matched, to its end, by `(\d+\/\d+)(\D*)`. */
  predicate FractionTail(t: string) {
    exists i, j :: 0 < i < |t| && i + 1 < j <= |t| && FractionAt(t, i, j)
  }

  /** `x` is matched by one iteration of `\S*\s`. */
  predicate Segment(x: string) {
    |x| > 0 && IsSpace(x[|x| - 1]) && forall i :: 0 <= i < |x| - 1 ==> !IsSpace(x[i])
  }

  /** `x` is matched by `(\S*\s)*`. */
  predicate Segments(x: string)
    decreases |x|
  {
    x == [] || exists k :: 0 < k <= |x| && Segment(x[..k]) && Segments(x[k..])
  }

  /** Index of the first whitespace character of a text that ends in whitespace. */
  function FirstSpace(x: string): (k: nat)
    requires |x| > 0 && IsSpace(x[|x| - 1])
    ensures k < |x| && IsSpace(x[k])
    ensures forall i :: 0 <= i < k ==> !IsSpace(x[i])
  {
    if IsSpace(x[0]) then 0 else 1 + FirstSpace(x[1..])
  }

  lemma {:induction false} SegmentsEndInSpace(x: string)
    requires Segments(x) && x != []
    ensures IsSpace(x[|x| - 1])
    decreases |x|
  {
    var k :| 0 < k <= |x| && Segment(x[..k]) && Segments(x[k..]);
    if k == |x| {
      assert x[..k] == x;
    } else {
      SegmentsEndInSpace(x[k..]);
      assert x[k..][|x[k..]| - 1] == x[|x| - 1];
    }
  }

  lemma {:induction false} EndInSpaceSegments(x: string)
    requires x != [] && IsSpace(x[|x| - 1])
    ensures Segments(x)
    decreases |x|
  {
    var k := FirstSpace(x) + 1;
    assert Segment(x[..k]);
    if k < |x| {
      assert x[k..][|x[k..]| - 1] == x[|x| - 1];
      EndInSpaceSegments(x[k..]);
    }
  }

  /** The repeated group matches exactly the empty text and the texts ending in whitespace. */
  lemma SegmentsIff(x: string)
    ensures Segments(x) <==> x == [] || IsSpace(x[|x| - 1])
  {
    if x != [] {
      if Segments(x) {
        SegmentsEndInSpace(x);
      }
      if IsSpace(x[|x| - 1]) {
        EndInSpaceSegments(x);
      }
    }
  }

  /* ---------------- the match ---------------- */

  /** A successful match starting at offset `p` of `v`: group 1's repetitions span
      `v[p..q]`, groups 2 and 3 span `v[q..]`, and the match ends at the end of `v`. */
  predicate MatchSplit(v: string, p: nat, q: nat) {
    p <= q <= |v| && Segments(v[p..q]) && FractionTail(v[q..])
  }

  predicate MatchesAt(v: string, p: nat) {
    exists q :: p <= q <= |v| && MatchSplit(v, p, q)
  }

  /** Group 1 ends up set: some successful split repeats the group at least once.
      A greedy `*` explores every path with one more repetition before it tries to
      stop, so the engine reaches such a split before the zero-repetition one. */
  predicate GroupOneSetAt(v: string, p: nat) {
    exists q :: p < q <= |v| && MatchSplit(v, p, q)
  }

  /** The leftmost start at or after `p` at which the pattern matches. */
  function FirstMatchFrom(v: string, p: nat): (r: Option<nat>)
    decreases |v| + 1 - p
    ensures r.Some? ==> p <= r.value <= |v| && MatchesAt(v, r.value)
    ensures r.Some? ==> forall p' :: p <= p' < r.value ==> !MatchesAt(v, p')
    ensures r.None? ==> forall p' :: p <= p' <= |v| ==> !MatchesAt(v, p')
  {
    if p > |v| then None
    else if MatchesAt(v, p) then Some(p)
    else FirstMatchFrom(v, p + 1)
  }

  /** What the source reads of a `MatchData`: where the match starts and whether
      `match[1]` is set. `match[2]` is set in every match, the fraction being mandatory. */
  datatype MatchData = MatchData(start: nat, groupOneSet: bool)

  /** `val.match(pattern)`. */
  function Match(v: string): (r: Option<MatchData>)
    ensures r.None? <==> forall p :: 0 <= p <= |v| ==> !MatchesAt(v, p)
    ensures r.Some? ==> r.value.start <= |v| && MatchesAt(v, r.value.start)
    ensures r.Some? ==> forall p :: 0 <= p < r.value.start ==> !MatchesAt(v, p)
    ensures r.Some? ==> (r.value.groupOneSet <==> exists q :: r.value.start < q <= |v| && MatchSplit(v, r.value.start, q))
  {
    match FirstMatchFrom(v, 0)
    case None => None
    case Some(p) => Some(MatchData(p, GroupOneSetAt(v, p)))
  }

  /** The test of the source: a match whose group 1 is `nil`. */
  predicate ZeroPrefixTest(v: string) {
    var m := Match(v);
    m.Some? && !m.value.groupOneSet
  }

  /* ---------------- string_to_csv ---------------- */

  /** `string_to_csv`, as written: the `"0 "` is put in front of the ORIGINAL text. */
  function StringToCsv(s: string): string {
    var v := Gsub(s, '~', "");
    if ZeroPrefixTest(v) then "0 " + s else v
  }

  /** Some suffix of `v` is a bare fraction with an optional unit. */
  predicate HasFractionTail(v: string) {
    exists q :: 0 <= q <= |v| && FractionTail(v[q..])
  }

  /** Some such suffix directly follows a whitespace character. */
  predicate HasSpacedFractionTail(v: string) {
    exists q :: 0 < q <= |v| && IsSpace(v[q - 1]) && FractionTail(v[q..])
  }

  lemma MatchesAtIff(v: string, p: nat, q: nat)
    requires p <= q <= |v| && FractionTail(v[q..])
    ensures MatchSplit(v, p, q) <==> q == p || IsSpace(v[q - 1])
  {
    SegmentsIff(v[p..q]);
    if p < q {
      assert v[p..q][q - p - 1] == v[q - 1];
    }
  }

  /** A fraction after whitespace lets the leftmost match repeat group 1 at least once. */
  lemma SpacedTailSetsGroupOne(v: string, p: nat, q: nat)
    requires forall p' :: 0 <= p' < p ==> !MatchesAt(v, p')
    requires 0 < q <= |v| && IsSpace(v[q - 1]) && FractionTail(v[q..])
    ensures GroupOneSetAt(v, p)
  {
    MatchesAtIff(v, q - 1, q);
    assert MatchesAt(v, q - 1);
    MatchesAtIff(v, p, q);
    assert MatchSplit(v, p, q);
  }

  lemma ZeroPrefixSound(v: string)
    requires ZeroPrefixTest(v)
    ensures HasFractionTail(v) && !HasSpacedFractionTail(v)
  {
    var first := FirstMatchFrom(v, 0);
    var p := first.value;
    assert Match(v) == Some(MatchData(p, GroupOneSetAt(v, p)));
    var q0 :| p <= q0 <= |v| && MatchSplit(v, p, q0);
    assert FractionTail(v[q0..]);
    forall q | 0 < q <= |v| && FractionTail(v[q..])
      ensures !IsSpace(v[q - 1])
    {
      if IsSpace(v[q - 1]) {
        SpacedTailSetsGroupOne(v, p, q);
      }
    }
  }

  lemma ZeroPrefixComplete(v: string)
    requires HasFractionTail(v) && !HasSpacedFractionTail(v)
    ensures ZeroPrefixTest(v)
  {
    var q0 :| 0 <= q0 <= |v| && FractionTail(v[q0..]);
    MatchesAtIff(v, q0, q0);
    assert MatchesAt(v, q0);
    var first := FirstMatchFrom(v, 0);
    assert first.Some?;
    var p := first.value;
    assert Match(v) == Some(MatchData(p, GroupOneSetAt(v, p)));
    if GroupOneSetAt(v, p) {
      var q :| p < q <= |v| && MatchSplit(v, p, q);
      MatchesAtIff(v, p, q);
      assert false;
    }
  }

  /** The regular-expression test equals a plain condition on suffixes: the text ends
      in a fraction, and no fraction suffix follows whitespace. */
  lemma ZeroPrefixCharacterisation(v: string)
    ensures ZeroPrefixTest(v) <==> HasFractionTail(v) && !HasSpacedFractionTail(v)
  {
    if ZeroPrefixTest(v) {
      ZeroPrefixSound(v);
    }
    if HasFractionTail(v) && !HasSpacedFractionTail(v) {
      ZeroPrefixComplete(v);
    }
  }

  /** The result is either the text without tildes or `"0 "` before the original text,
      and it is the latter exactly when the tilde-free text passes the suffix test. */
  lemma StringToCsvCases(s: string)
    ensures var v := Gsub(s, '~', "");
      && (StringToCsv(s) == "0 " + s <==> HasFractionTail(v) && !HasSpacedFractionTail(v))
      && (StringToCsv(s) != "0 " + s ==> StringToCsv(s) == v && '~' !in StringToCsv(s))
  {
    var v := Gsub(s, '~', "");
    GsubLength(s, '~', "");
    ZeroPrefixCharacterisation(v);
    assert |v| <= |s| < |"0 " + s|;
  }

  /* ---------------- worked examples ---------------- */

  lemma FractionHasSlash(t: string)
    requires FractionTail(t)
    ensures '/' in t
  {
    var i, j :| 0 < i < |t| && i + 1 < j <= |t| && FractionAt(t, i, j);
  }

  /** A text without a slash has no fraction suffix. */
  lemma NoSlashNoFraction(v: string)
    requires '/' !in v
    ensures !HasFractionTail(v)
  {
    forall q | 0 <= q <= |v|
      ensures !FractionTail(v[q..])
    {
      if FractionTail(v[q..]) {
        FractionHasSlash(v[q..]);
        assert false;
      }
    }
  }

  lemma FractionStartsWithDigit(t: string)
    requires FractionTail(t)
    ensures IsDigit(t[0])
  {
    var i, j :| 0 < i < |t| && i + 1 < j <= |t| && FractionAt(t, i, j);
    assert t[..i][0] == t[0];
  }

  /** A bare fraction `n/d` followed by a digit-free unit passes the suffix test. */
  lemma BareFractionPasses(n: string, d: string, u: string)
    requires |n| > 0 && AllDigits(n) && |d| > 0 && AllDigits(d) && NoDigits(u)
    ensures FractionTail(n + "/" + d + u)
    ensures HasFractionTail(n + "/" + d + u)
    ensures !HasSpacedFractionTail(n + "/" + d + u)
  {
    var t := n + "/" + d + u;
    var i, j := |n|, |n| + 1 + |d|;
    assert t[..i] == n && t[i + 1..j] == d && t[j..] == u;
    assert FractionAt(t, i, j);
    assert t[0..] == t;
    forall q | 0 < q <= |t|
      ensures IsSpace(t[q - 1]) ==> !FractionTail(t[q..])
    {
      if q - 1 < i {
        assert t[q - 1] == n[q - 1];
      } else if q - 1 < j {
        assert t[q - 1] == ("/" + d)[q - 1 - i];
      } else if q < |t| {
        assert t[q..][0] == u[q - j];
        if FractionTail(t[q..]) {
          FractionStartsWithDigit(t[q..]);
        }
      }
    }
  }

  /** A bare fraction with a digit-free unit gets the prefix, as `"1/2 in"` becomes `"0 1/2 in"`. */
  lemma StringToCsvBareFraction(n: string, d: string, u: string)
    requires |n| > 0 && AllDigits(n) && |d| > 0 && AllDigits(d) && NoDigits(u) && '~' !in u
    ensures var s := n + "/" + d + u; StringToCsv(s) == "0 " + s
  {
    var s := n + "/" + d + u;
    BareFractionPasses(n, d, u);
    FractionHasNoTilde(n, d, u);
    StringToCsvCases(s);
  }

  /** A fraction after whitespace is the tail of a mixed number and is left alone, as
      `"3 1/2 in"` comes back unchanged. */
  lemma StringToCsvMixedNumber(w: string, n: string, d: string, u: string)
    requires |n| > 0 && AllDigits(n) && |d| > 0 && AllDigits(d) && NoDigits(u)
    requires '~' !in w + " " + n + "/" + d + u
    ensures StringToCsv(w + " " + n + "/" + d + u) == w + " " + n + "/" + d + u
  {
    var s := w + " " + n + "/" + d + u;
    var t := n + "/" + d + u;
    assert s == (w + " ") + t;
    BareFractionPasses(n, d, u);
    var q := |w| + 1;
    assert s[q..] == t && s[q - 1] == ' ';
    assert t[0..] == t;
    assert FractionTail(s[q..]);
    StringToCsvCases(s);
  }

  /** A text without a slash only loses its tildes, as `"~5"` becomes `"5"`. */
  lemma StringToCsvNoFraction(s: string)
    requires '/' !in s
    ensures StringToCsv(s) == Gsub(s, '~', "")
  {
    var v := Gsub(s, '~', "");
    assert '/' !in v by {
      GsubKeeps(s, '~', "", '/');
    }
    NoSlashNoFraction(v);
    StringToCsvCases(s);
  }

  /** The prefix is put before the original text, so its tildes come back: `"~1/2"`
      becomes `"0 ~1/2"`, although the first step removed the tilde. */
  lemma StringToCsvKeepsTilde(n: string, d: string, u: string)
    requires |n| > 0 && AllDigits(n) && |d| > 0 && AllDigits(d) && NoDigits(u) && '~' !in u
    ensures var s := "~" + (n + "/" + d + u); StringToCsv(s) == "0 " + s
  {
    var t := n + "/" + d + u;
    var s := "~" + t;
    FractionHasNoTilde(n, d, u);
    assert s[0] == '~' && s[1..] == t;
    GsubDropsLeading(s);
    BareFractionPasses(n, d, u);
    StringToCsvCases(s);
  }

  lemma GsubDropsLeading(s: string)
    requires |s| > 0 && s[0] == '~' && '~' !in s[1..]
    ensures Gsub(s, '~', "") == s[1..]
  {
  }

  lemma FractionHasNoTilde(n: string, d: string, u: string)
    requires AllDigits(n) && AllDigits(d) && '~' !in u
    ensures '~' !in n + "/" + d + u
  {
    assert '~' !in n && '~' !in d;
  }

  /* ---------------- the evidently intended behaviour ---------------- */

  /** `string_to_csv` as its comments describe it: first remove every `~`, then put
      `"0 "` before that tilde-free text when it ends in a bare fraction. */
  function StringToCsvIntended(s: string): (r: string)
    ensures '~' !in r
  {
    var v := Gsub(s, '~', "");
    if ZeroPrefixTest(v) then "0 " + v else v
  }

  /** The intended result never holds a tilde, carries the prefix exactly when the
      source's test passes, and agrees with the source on texts without tildes. */
  lemma StringToCsvIntendedSpec(s: string)
    ensures var v := Gsub(s, '~', "");
      && (StringToCsvIntended(s) == "0 " + v <==> HasFractionTail(v) && !HasSpacedFractionTail(v))
      && ('~' !in s ==> StringToCsvIntended(s) == StringToCsv(s))
  {
    var v := Gsub(s, '~', "");
    ZeroPrefixCharacterisation(v);
    assert |v| < |"0 " + v|;
  }
}

=== FILE: host.dfy ===
/**
 The part of the SketchUp model the cut-list utilities touch, as an immutable
 value: the list of component definitions, each with the instances placed
 from it, and the entity list of the active model. Adding and erasing an
 instance are pure transitions; `group_definition` is the reverse lookup
 from a group instance to the definition that owns it.
 */
module HostModel {
  import opened Wrappers

  /** What a placed instance offers: a component instance answers `definition`;
      a group does not but has the type name `"Group"`; anything else is neither. */
  datatype Kind = ComponentInstance | Group | OtherEntity

  /** A placed instance. Its id stands for Ruby object identity: `==` on two instances. */
  datatype Instance = Instance(id: nat, kind: Kind)

  /** A component definition: the instances placed from it, the kind of instance
      `add_instance` creates from it, and the text the host renders for the width of
      its bounding box in inches (`bounds.width.inch.to_l.to_s`), left uninterpreted. */
  datatype Definition = Definition(instances: seq<Instance>, creates: Kind, widthText: string)

  datatype Host = Host(definitions: seq<Definition>, entities: seq<Instance>)

  /* ---------------- identities ---------------- */

  function MaxId(xs: seq<Instance>): (m: nat)
    ensures forall i :: 0 <= i < |xs| ==> xs[i].id <= m
  {
    if xs == [] then 0
    else var m := MaxId(xs[1..]); if xs[0].id > m then xs[0].id else m
  }

  function MaxDefinitionId(ds: seq<Definition>): (m: nat)
    ensures forall k, i :: 0 <= k < |ds| && 0 <= i < |ds[k].instances| ==> ds[k].instances[i].id <= m
  {
    if ds == [] then 0
    else
      var a, b := MaxId(ds[0].instances), MaxDefinitionId(ds[1..]);
      assert forall k :: 1 <= k < |ds| ==> ds[k] == ds[1..][k - 1];
      if a > b then a else b
  }

  /** An instance with this id already exists somewhere in the host. */
  predicate IdInUse(h: Host, id: nat) {
    (exists i :: 0 <= i < |h.entities| && h.entities[i].id == id)
    || exists k, i :: 0 <= k < |h.definitions| && 0 <= i < |h.definitions[k].instances|
                      && h.definitions[k].instances[i].id == id
  }

  /** The id the host gives the next new instance. */
  function FreshId(h: Host): (id: nat)
    ensures !IdInUse(h, id)
  {
    var a, b := MaxId(h.entities), MaxDefinitionId(h.definitions);
    (if a > b then a else b) + 1
  }

  /* ---------------- add_instance and erase_entities ---------------- */

  /** The instance `entities.add_instance(definitions[k], ...)` creates. */
  function NewInstance(h: Host, k: nat): (x: Instance)
    requires k < |h.definitions|
    ensures !IdInUse(h, x.id)
    ensures x.kind == h.definitions[k].creates
  {
    Instance(FreshId(h), h.definitions[k].creates)
  }

  /** The host after `add_instance`: the new instance is an entity of the model and
      one of the instances of the definition it was placed from. */
  function AddInstance(h: Host, k: nat): (h': Host)
    requires k < |h.definitions|
    ensures |h'.definitions| == |h.definitions|
    ensures h'.entities == h.entities + [NewInstance(h, k)]
    ensures h'.definitions[k].instances == h.definitions[k].instances + [NewInstance(h, k)]
    ensures h'.definitions[k].creates == h.definitions[k].creates
    ensures h'.definitions[k].widthText == h.definitions[k].widthText
    ensures forall j :: 0 <= j < |h.definitions| && j != k ==> h'.definitions[j] == h.definitions[j]
  {
    var x := NewInstance(h, k);
    var d := h.definitions[k];
    Host(h.definitions[k := d.(instances := d.instances + [x])], h.entities + [x])
  }

  /** `xs` without any occurrence of `x`. */
  function Without(xs: seq<Instance>, x: Instance): (r: seq<Instance>)
    ensures x !in r
    ensures forall y :: y in r <==> y in xs && y != x
    ensures x !in xs ==> r == xs
  {
    if xs == [] then []
    else (if xs[0] == x then [] else [xs[0]]) + Without(xs[1..], x)
  }

  lemma {:induction false} WithoutLast(xs: seq<Instance>, x: Instance)
    requires x !in xs
    ensures Without(xs + [x], x) == xs
  {
    if xs == [] {
      assert [x][1..] == [];
    } else {
      assert (xs + [x])[1..] == xs[1..] + [x];
      WithoutLast(xs[1..], x);
      assert xs == [xs[0]] + xs[1..];
    }
  }

  /** The host after `entities.erase_entities(x)`: `x` is gone from the model and from
      the instance list of every definition. */
  function Erase(h: Host, x: Instance): (h': Host)
    ensures forall y :: y in h'.entities <==> y in h.entities && y != x
    ensures |h'.definitions| == |h.definitions|
    ensures forall k, y :: 0 <= k < |h.definitions| ==>
              (y in h'.definitions[k].instances <==> y in h.definitions[k].instances && y != x)
    ensures forall k :: 0 <= k < |h.definitions| ==>
              h'.definitions[k].creates == h.definitions[k].creates
              && h'.definitions[k].widthText == h.definitions[k].widthText
  {
    Host(seq(|h.definitions|, k requires 0 <= k < |h.definitions| =>
               h.definitions[k].(instances := Without(h.definitions[k].instances, x))),
         Without(h.entities, x))
  }

  /** Erasing the instance just added gives back the host as it was. */
  lemma EraseUndoesAdd(h: Host, k: nat)
    requires k < |h.definitions|
    ensures Erase(AddInstance(h, k), NewInstance(h, k)) == h
  {
    var x := NewInstance(h, k);
    var h1 := AddInstance(h, k);
    var h2 := Erase(h1, x);
    assert x !in h.entities;
    WithoutLast(h.entities, x);
    forall j | 0 <= j < |h.definitions|
      ensures h2.definitions[j] == h.definitions[j]
    {
      var d := h.definitions[j];
      assert x !in d.instances;
      if j == k {
        WithoutLast(d.instances, x);
      }
    }
    assert h2.definitions == h.definitions;
  }

  /* ---------------- group_definition ---------------- */

  /** `definition` owns `group` the way `group_definition` tests it: one of its
      instances has the type name `"Group"` and is `group`. */
  predicate HoldsGroup(d: Definition, group: Instance) {
    group.kind == Group && group in d.instances
  }

  /** The inner loop over `definition.instances`. */
  function ScanInstances(xs: seq<Instance>, group: Instance): (found: bool)
    ensures found <==> group.kind == Group && group in xs
  {
    if xs == [] then false
    else if xs[0].kind == Group && xs[0] == group then true
    else ScanInstances(xs[1..], group)
  }

  /** The outer loop over the definitions, from index `k` on. */
  function ScanDefinitions(ds: seq<Definition>, group: Instance, k: nat): (r: Option<nat>)
    decreases |ds| - k
    ensures r.Some? ==> k <= r.value < |ds| && HoldsGroup(ds[r.value], group)
    ensures r.Some? ==> forall j :: k <= j < r.value ==> !HoldsGroup(ds[j], group)
    ensures r.None? <==> forall j :: k <= j < |ds| ==> !HoldsGroup(ds[j], group)
  {
    if k >= |ds| then None
    else if ScanInstances(ds[k].instances, group) then Some(k)
    else ScanDefinitions(ds, group, k + 1)
  }

  /** `group_definition(group)`: the index of the first definition holding `group` as a
      group instance, or `None` for `nil`. The host is only read. */
  function GroupDefinition(h: Host, group: Instance): (r: Option<nat>)
    ensures r.Some? ==> r.value < |h.definitions| && HoldsGroup(h.definitions[r.value], group)
    ensures r.Some? ==> forall j :: 0 <= j < r.value ==> !HoldsGroup(h.definitions[j], group)
    ensures r.None? <==> forall j :: 0 <= j < |h.definitions| ==> !HoldsGroup(h.definitions[j], group)
  {
    ScanDefinitions(h.definitions, group, 0)
  }

  /** Every instance is listed by at most one definition. */
  predicate OneOwner(h: Host) {
    forall j, k, x ::
      (0 <= j < |h.definitions| && 0 <= k < |h.definitions|
       && x in h.definitions[j].instances && x in h.definitions[k].instances) ==> j == k
  }

  /** Under the one-owner invariant the lookup finds the group's unique owner. */
  lemma GroupDefinitionFindsOwner(h: Host, group: Instance, k: nat)
    requires OneOwner(h)
    requires k < |h.definitions| && group.kind == Group && group in h.definitions[k].instances
    ensures GroupDefinition(h, group) == Some(k)
  {
  }

  /** A group instance just added is found in the definition it was placed from: the
      new id is fresh, so no earlier definition lists it. */
  lemma GroupDefinitionOfNewInstance(h: Host, k: nat)
    requires k < |h.definitions| && h.definitions[k].creates == Group
    ensures GroupDefinition(AddInstance(h, k), NewInstance(h, k)) == Some(k)
  {
    var x := NewInstance(h, k);
    var h1 := AddInstance(h, k);
    forall j | 0 <= j < |h1.definitions| && j != k
      ensures x !in h1.definitions[j].instances
    {
      assert h1.definitions[j] == h.definitions[j];
    }
  }
}

=== FILE: notation.dfy ===
/**
 The decimal-notation cache of the cut-list utilities: `@@decimalNotation`,
 `initialiseDecimalNotation`, `decimalNotationInitialised?`,
 `decimalNotation`, and `decimal_to_comma`, which reads the cache.

 The Ruby class variable becomes a field of an explicit `Session` value, and
 every operation returns the session after it together with the host calls
 it made, so "no host operation" is something a contract can say.
 */
module Notation {
  import opened Strings
  import opened Wrappers
  import HostModel

  /** `@@decimalNotation`: `""` until detection has run, then `"."` or `","`. */
  datatype Separator = Unset | Dot | Comma

  function SeparatorText(sep: Separator): string {
    match sep
    case Unset => ""
    case Dot => "."
    case Comma => ","
  }

  datatype Session = Session(host: HostModel.Host, cache: Separator)

  /** The host operations a run performs, in order: the two collection reads, then
      every operation that adds, looks up, renders or erases. */
  datatype HostCall =
    | ReadEntities
    | ReadDefinitions
    | PlaceInstance(id: nat)
    | FindGroupDefinition(id: nat)
    | RenderWidth
    | EraseEntities(id: nat)

  /** How a run ends: normally, or with the `NoMethodError` raised by calling `bounds` on `nil`. */
  datatype Exit = Normal | NoMethodError

  datatype Run = Run(state: Session, calls: seq<HostCall>, exit: Exit)

  /** `widthString.match /(\d+)(\,)(\d+)/`. */
  predicate CommaDecimal(widthText: string) {
    SeparatesDigits(widthText, ',')
  }

  /** The end of the probe once a bounding box is known: render its width, test the
      text, then erase the temporary instance `x`. */
  function Measure(h1: HostModel.Host, x: HostModel.Instance, widthText: string, calls: seq<HostCall>): (r: Run)
    ensures r.exit == Normal
    ensures r.state.cache == Comma <==> CommaDecimal(widthText)
    ensures r.state.cache != Unset
    ensures x !in r.state.host.entities
    ensures r.state.host == HostModel.Erase(h1, x)
    ensures r.calls == calls + [RenderWidth, EraseEntities(x.id)]
  {
    var sep := if CommaDecimal(widthText) then Comma else Dot;
    Run(Session(HostModel.Erase(h1, x), sep), calls + [RenderWidth, EraseEntities(x.id)], Normal)
  }

  /** The group branch of the probe: look the definition up, then measure it. The source
      has no `ensure`, so a failed lookup raises with `x` still in the model. */
  function MeasureGroup(h1: HostModel.Host, x: HostModel.Instance, calls: seq<HostCall>): (r: Run)
    ensures r.exit == NoMethodError <==> HostModel.GroupDefinition(h1, x).None?
  {
    var found := calls + [FindGroupDefinition(x.id)];
    match HostModel.GroupDefinition(h1, x)
    case None => Run(Session(h1, Dot), found, NoMethodError)
    case Some(k) => Measure(h1, x, h1.definitions[k].widthText, found)
  }

  /** `initialiseDecimalNotation`: set the cache to `"."`, then, if the model has a
      definition, place a temporary instance of the first one, measure it, set the
      cache from the rendered width, and erase the instance. */
  function Initialise(s: Session): (r: Run)
    ensures r.state.cache != Unset
    ensures |r.calls| >= 2 && r.calls[..2] == [ReadEntities, ReadDefinitions]
  {
    var h := s.host;
    if |h.definitions| == 0 then
      Run(Session(h, Dot), [ReadEntities, ReadDefinitions], Normal)
    else
      var x := HostModel.NewInstance(h, 0);
      var h1 := HostModel.AddInstance(h, 0);
      var calls := [ReadEntities, ReadDefinitions, PlaceInstance(x.id)];
      match x.kind
      case ComponentInstance => Measure(h1, x, h1.definitions[0].widthText, calls)
      case Group => MeasureGroup(h1, x, calls)
      case OtherEntity => Run(Session(HostModel.Erase(h1, x), Dot), calls + [EraseEntities(x.id)], Normal)
  }

  /** `decimalNotationInitialised?`: the cached text is not empty. */
  predicate Initialised(s: Session): (b: bool)
    ensures b <==> SeparatorText(s.cache) != ""
  {
    s.cache != Unset
  }

  /** `decimalNotation`: detect on first use, then answer from the cache. */
  function DecimalNotation(s: Session): (r: Run)
    ensures Initialised(r.state)
    ensures Initialised(s) ==> r == Run(s, [], Normal)
    ensures !Initialised(s) ==> r == Initialise(s)
  {
    if Initialised(s) then Run(s, [], Normal) else Initialise(s)
  }

  /* ---------------- properties of the probe ---------------- */

  /** The lookup cannot fail: the probe's own group instance has a fresh id and is listed
      by the first definition, so `bounds` is never called on `nil`. */
  lemma InitialiseNeverRaises(s: Session)
    ensures Initialise(s).exit == Normal
  {
    var h := s.host;
    if |h.definitions| > 0 && h.definitions[0].creates == HostModel.Group {
      HostModel.GroupDefinitionOfNewInstance(h, 0);
    }
  }

  /** Every path that adds the temporary instance erases it again: the model is left
      exactly as it was, entity list and definitions alike. */
  lemma InitialiseRestoresHost(s: Session)
    ensures Initialise(s).state.host == s.host
  {
    var h := s.host;
    if |h.definitions| > 0 {
      HostModel.EraseUndoesAdd(h, 0);
      if h.definitions[0].creates == HostModel.Group {
        HostModel.GroupDefinitionOfNewInstance(h, 0);
      }
    }
  }

  /** The detected separator is `","` exactly when the first definition yields a
      component or a group whose rendered width has a comma between digits. */
  lemma InitialiseDetects(s: Session)
    ensures var h := s.host;
      Initialise(s).state.cache == Comma <==>
        |h.definitions| > 0 && h.definitions[0].creates != HostModel.OtherEntity
        && CommaDecimal(h.definitions[0].widthText)
  {
    var h := s.host;
    if |h.definitions| > 0 && h.definitions[0].creates == HostModel.Group {
      HostModel.GroupDefinitionOfNewInstance(h, 0);
    }
  }

  /** The host calls of a run: with no definitions only the two collections are read;
      otherwise one instance is added and that same instance is erased last. */
  lemma InitialiseCalls(s: Session)
    ensures var h, r := s.host, Initialise(s);
      && (|h.definitions| == 0 ==> r.calls == [ReadEntities, ReadDefinitions])
      && (|h.definitions| > 0 ==>
            var id := HostModel.NewInstance(h, 0).id;
            |r.calls| >= 4 && r.calls[2] == PlaceInstance(id) && r.calls[|r.calls| - 1] == EraseEntities(id)
            && (forall i :: 2 < i < |r.calls| - 1 ==> !r.calls[i].PlaceInstance? && !r.calls[i].EraseEntities?))
  {
    var h := s.host;
    if |h.definitions| > 0 && h.definitions[0].creates == HostModel.Group {
      HostModel.GroupDefinitionOfNewInstance(h, 0);
    }
  }

  /** As written, a group lookup that fails leaves the temporary instance in the model:
      nothing erases it on the way out. */
  lemma MeasureGroupLeaksOnFailedLookup(h1: HostModel.Host, x: HostModel.Instance, calls: seq<HostCall>)
    requires x in h1.entities && HostModel.GroupDefinition(h1, x).None?
    ensures MeasureGroup(h1, x, calls).exit == NoMethodError
    ensures x in MeasureGroup(h1, x, calls).state.host.entities
    ensures EraseEntities(x.id) !in MeasureGroup(h1, x, calls).calls[|calls|..]
  {
  }

  /** A second call answers from the cache: no host call, nothing changes, and the
      model is the one before the first call. */
  lemma DecimalNotationTwice(s: Session)
    ensures var r1 := DecimalNotation(s);
      var r2 := DecimalNotation(r1.state);
      && r1.exit == Normal && r1.state.host == s.host
      && r2.calls == [] && r2.state == r1.state
  {
    if !Initialised(s) {
      InitialiseNeverRaises(s);
      InitialiseRestoresHost(s);
    }
  }

  /** The first call runs the probe: it ends normally, leaves the model as it was, and
      caches `","` exactly when the first definition's rendered width has a comma
      between digits. */
  lemma DecimalNotationFirstCall(s: Session)
    requires !Initialised(s)
    ensures var r, h := DecimalNotation(s), s.host;
      && r.exit == Normal && r.state.host == h
      && |r.calls| >= 2 && r.calls[..2] == [ReadEntities, ReadDefinitions]
      && (r.state.cache == Comma <==>
            |h.definitions| > 0 && h.definitions[0].creates != HostModel.OtherEntity
            && CommaDecimal(h.definitions[0].widthText))
  {
    InitialiseNeverRaises(s);
    InitialiseRestoresHost(s);
    InitialiseDetects(s);
  }

  /* ---------------- decimal_to_comma ---------------- */

  /** What `decimal_to_comma` gives back: the run of the cache lookup it made, if any,
      and the converted text. */
  datatype Converted = Converted(run: Run, text: string)

  /** `decimal_to_comma`: when some `.` sits between digits, every `.` of the text becomes
      the cached separator, detecting it first if need be; otherwise the text is
      returned untouched and the cache is not consulted. */
  function DecimalToComma(s: Session, text: string): (c: Converted)
    ensures !SeparatesDigits(text, '.') ==> c == Converted(Run(s, [], Normal), text)
  {
    if SeparatesDigits(text, '.') then
      var r := DecimalNotation(s);
      Converted(r, Gsub(text, '.', SeparatorText(r.state.cache)))
    else
      Converted(Run(s, [], Normal), text)
  }

  function SeparatorChar(sep: Separator): char
    requires sep != Unset
  {
    if sep == Dot then '.' else ','
  }

  /** On a match the conversion is a character-for-character replacement of every `.`
      (between digits or not) by the cached separator; the length is kept. */
  lemma DecimalToCommaReplaces(s: Session, text: string)
    requires SeparatesDigits(text, '.')
    ensures var c := DecimalToComma(s, text);
      && c.run == DecimalNotation(s)
      && |c.text| == |text|
      && forall i :: 0 <= i < |text| ==>
           c.text[i] == if text[i] == '.' then SeparatorChar(c.run.state.cache) else text[i]
  {
    var r := DecimalNotation(s);
    assert SeparatorText(r.state.cache) == [SeparatorChar(r.state.cache)];
    GsubPointwise(text, '.', SeparatorChar(r.state.cache));
  }

  /** With `"."` as the separator the conversion changes nothing. */
  lemma DecimalToCommaDotIsIdentity(s: Session, text: string)
    requires DecimalNotation(s).state.cache == Dot
    ensures DecimalToComma(s, text).text == text
  {
    if SeparatesDigits(text, '.') {
      DecimalToCommaReplaces(s, text);
      var t := DecimalToComma(s, text).text;
      assert forall i :: 0 <= i < |text| ==> t[i] == text[i];
    }
  }

  /** With `","` cached, `"12.5"` becomes `"12,5"`, without a host call. */
  lemma DecimalToCommaExample(h: HostModel.Host)
    ensures DecimalToComma(Session(h, Comma), "12.5") == Converted(Run(Session(h, Comma), [], Normal), "12,5")
  {
    var text := "12.5";
    assert text[2] == '.' && IsDigit(text[1]) && IsDigit(text[3]);
    assert SeparatesDigits(text, '.');
    DecimalToCommaReplaces(Session(h, Comma), text);
  }
}

=== FILE: numeric.dfy ===
/**
 `integer_to_fws`: a non-negative integer printed as a zero-padded field,
 `"%0#{width}d" % integer.to_s`.
 */
module Numeric {
  import opened Strings

  function DigitChar(k: nat): (c: char)
    requires k < 10
    ensures IsDigit(c)
  {
    ('0' as int + k) as char
  }

  function DigitValue(c: char): (k: nat)
    requires IsDigit(c)
    ensures k < 10 && DigitChar(k) == c
  {
    c as int - '0' as int
  }

  /** `n.to_s`: the decimal digits of `n`, most significant first, without leading zeros. */
  function Digits(n: nat): (r: string)
    ensures |r| > 0 && AllDigits(r)
    ensures r[0] == '0' ==> n == 0
    decreases n
  {
    if n < 10 then [DigitChar(n)] else Digits(n / 10) + [DigitChar(n % 10)]
  }

  /** The number a text of decimal digits denotes. */
  function Value(s: string): nat
    requires AllDigits(s)
    decreases |s|
  {
    if s == [] then 0 else Value(s[..|s| - 1]) * 10 + DigitValue(s[|s| - 1])
  }

  function Zeros(k: nat): (r: string)
    ensures |r| == k && AllDigits(r)
    ensures forall i :: 0 <= i < k ==> r[i] == '0'
  {
    if k == 0 then [] else Zeros(k - 1) + ['0']
  }

  /** `integer_to_fws(width, n)`. Ruby's `%0Nd` pads with zeros up to `N` characters and
      never shortens a longer number, whatever the comment above the method says. */
  function IntegerToFws(width: nat, n: nat): (r: string)
    ensures |r| == if width > |Digits(n)| then width else |Digits(n)|
    ensures AllDigits(r)
  {
    var d := Digits(n);
    if width > |d| then Zeros(width - |d|) + d else d
  }

  /** Reading the digits back gives the number. */
  lemma {:induction false} DigitsRoundTrip(n: nat)
    ensures Value(Digits(n)) == n
    decreases n
  {
    if n >= 10 {
      var d := Digits(n);
      DigitsRoundTrip(n / 10);
      assert d[..|d| - 1] == Digits(n / 10);
    }
  }

  lemma {:induction false} ValueOfZeros(k: nat)
    ensures Value(Zeros(k)) == 0
  {
    if k > 0 {
      ValueOfZeros(k - 1);
      assert Zeros(k)[..k - 1] == Zeros(k - 1);
    }
  }

  /** Leading zeros do not change the value. */
  lemma {:induction false} ValueLeadingZeros(k: nat, t: string)
    requires AllDigits(t)
    ensures Value(Zeros(k) + t) == Value(t)
    decreases |t|
  {
    var z := Zeros(k) + t;
    if t == [] {
      assert z == Zeros(k);
      ValueOfZeros(k);
    } else {
      var t' := t[..|t| - 1];
      ValueLeadingZeros(k, t');
      assert z[..|z| - 1] == Zeros(k) + t';
      assert z[|z| - 1] == t[|t| - 1];
    }
  }

  /** The field denotes `n` again: padding only adds leading zeros. */
  lemma IntegerToFwsRoundTrip(width: nat, n: nat)
    ensures Value(IntegerToFws(width, n)) == n
  {
    var d := Digits(n);
    DigitsRoundTrip(n);
    if width > |d| {
      ValueLeadingZeros(width - |d|, d);
    }
  }

  /** The field ends with all the digits of `n` and everything before them is `'0'`:
      nothing is cut off, however narrow the field. */
  lemma IntegerToFwsNeverTruncates(width: nat, n: nat)
    ensures var r, d := IntegerToFws(width, n), Digits(n);
      && |r| >= width && |r| >= |d|
      && r[|r| - |d|..] == d
      && forall i :: 0 <= i < |r| - |d| ==> r[i] == '0'
  {
    var r, d := IntegerToFws(width, n), Digits(n);
    if width > |d| {
      assert r[|r| - |d|..] == d;
    }
  }

  lemma IntegerToFwsExamples()
    ensures IntegerToFws(3, 7) == "007"
    ensures IntegerToFws(2, 12345) == "12345"
  {
    assert Digits(7) == "7";
    assert Zeros(2) == "00";
    assert Digits(12345) == "12345";
  }
}

=== FILE: sanitizer.dfy ===
/**
 The two escaping sanitisers of the cut-list utilities: `string_to_html`
 (character references for display in an HTML page) and `string_to_clp`
 (quote doubling for the CutList Plus import dialect, the rule of section 2,
 item 7 of RFC 4180).
 */
module Sanitizer {
  import opened Strings

  /* ---------------- string_to_html ---------------- */

  /** `string_to_html`: seven `gsub` passes, in the order the source applies them. */
  function StringToHtml(s: string): string {
    var v1 := Gsub(s, '&', "&amp;");
    var v2 := Gsub(v1, ' ', "&#32;");
    var v3 := Gsub(v2, '\'', "&#39;");
    var v4 := Gsub(v3, '"', "&quot;");
    var v5 := Gsub(v4, '<', "&lt;");
    var v6 := Gsub(v5, '>', "&gt;");
    Gsub(v6, '-', "&#45;")
  }

  /** The character reference each special character is written as. */
  function HtmlEscape(c: char): string {
    match c
    case '&' => "&amp;"
    case ' ' => "&#32;"
    case '\'' => "&#39;"
    case '"' => "&quot;"
    case '<' => "&lt;"
    case '>' => "&gt;"
    case '-' => "&#45;"
    case _ => [c]
  }

  /** Reference definition: one pass, each character escaped on its own. */
  function HtmlEscapeEach(s: string): string {
    if s == [] then [] else HtmlEscape(s[0]) + HtmlEscapeEach(s[1..])
  }

  lemma HtmlChainAppend(a: string, b: string)
    ensures StringToHtml(a + b) == StringToHtml(a) + StringToHtml(b)
  {
    var a1, b1 := Gsub(a, '&', "&amp;"), Gsub(b, '&', "&amp;");
    GsubAppend(a, b, '&', "&amp;");
    var a2, b2 := Gsub(a1, ' ', "&#32;"), Gsub(b1, ' ', "&#32;");
    GsubAppend(a1, b1, ' ', "&#32;");
    var a3, b3 := Gsub(a2, '\'', "&#39;"), Gsub(b2, '\'', "&#39;");
    GsubAppend(a2, b2, '\'', "&#39;");
    var a4, b4 := Gsub(a3, '"', "&quot;"), Gsub(b3, '"', "&quot;");
    GsubAppend(a3, b3, '"', "&quot;");
    var a5, b5 := Gsub(a4, '<', "&lt;"), Gsub(b4, '<', "&lt;");
    GsubAppend(a4, b4, '<', "&lt;");
    var a6, b6 := Gsub(a5, '>', "&gt;"), Gsub(b5, '>', "&gt;");
    GsubAppend(a5, b5, '>', "&gt;");
    GsubAppend(a6, b6, '-', "&#45;");
  }

  /** On one character the seven passes produce exactly that character's reference:
      passes before its own leave it alone, and no inserted reference contains a
      character a later pass rewrites. */
  lemma HtmlChainChar(c: char)
    ensures StringToHtml([c]) == HtmlEscape(c)
  {
    if c == '&' {
      HtmlChainAmpersand();
    } else if c == ' ' {
      HtmlChainSpace();
    } else if c == '\'' {
      HtmlChainApostrophe();
    } else if c == '"' {
      HtmlChainQuote();
    } else if c == '<' {
      HtmlChainLess();
    } else if c == '>' {
      HtmlChainGreater();
    } else if c == '-' {
      HtmlChainHyphen();
    } else {
      HtmlChainPlain(c);
    }
  }

  lemma HtmlChainAmpersand()
    ensures StringToHtml(['&']) == "&amp;"
  {
    Gsub1('&', '&', "&amp;");
    var e := "&amp;";
    assert ' ' !in e && '\'' !in e && '"' !in e && '<' !in e && '>' !in e && '-' !in e;
  }

  lemma HtmlChainSpace()
    ensures StringToHtml([' ']) == "&#32;"
  {
    Gsub1(' ', '&', "&amp;");
    Gsub1(' ', ' ', "&#32;");
    var e := "&#32;";
    assert '\'' !in e && '"' !in e && '<' !in e && '>' !in e && '-' !in e;
  }

  lemma HtmlChainApostrophe()
    ensures StringToHtml(['\'']) == "&#39;"
  {
    Gsub1('\'', '&', "&amp;");
    Gsub1('\'', ' ', "&#32;");
    Gsub1('\'', '\'', "&#39;");
    var e := "&#39;";
    assert '"' !in e && '<' !in e && '>' !in e && '-' !in e;
  }

  lemma HtmlChainQuote()
    ensures StringToHtml(['"']) == "&quot;"
  {
    Gsub1('"', '&', "&amp;");
    Gsub1('"', ' ', "&#32;");
    Gsub1('"', '\'', "&#39;");
    Gsub1('"', '"', "&quot;");
    var e := "&quot;";
    assert '<' !in e && '>' !in e && '-' !in e;
  }

  lemma HtmlChainLess()
    ensures StringToHtml(['<']) == "&lt;"
  {
    Gsub1('<', '&', "&amp;");
    Gsub1('<', ' ', "&#32;");
    Gsub1('<', '\'', "&#39;");
    Gsub1('<', '"', "&quot;");
    Gsub1('<', '<', "&lt;");
    var e := "&lt;";
    assert '>' !in e && '-' !in e;
  }

  lemma HtmlChainGreater()
    ensures StringToHtml(['>']) == "&gt;"
  {
    Gsub1('>', '&', "&amp;");
    Gsub1('>', ' ', "&#32;");
    Gsub1('>', '\'', "&#39;");
    Gsub1('>', '"', "&quot;");
    Gsub1('>', '<', "&lt;");
    Gsub1('>', '>', "&gt;");
    var e := "&gt;";
    assert '-' !in e;
  }

  lemma HtmlChainHyphen()
    ensures StringToHtml(['-']) == "&#45;"
  {
    Gsub1('-', '&', "&amp;");
    Gsub1('-', ' ', "&#32;");
    Gsub1('-', '\'', "&#39;");
    Gsub1('-', '"', "&quot;");
    Gsub1('-', '<', "&lt;");
    Gsub1('-', '>', "&gt;");
    Gsub1('-', '-', "&#45;");
  }

  lemma HtmlChainPlain(c: char)
    requires !HtmlSpecial(c)
    ensures StringToHtml([c]) == [c]
  {
  }

  /** The ordered `gsub` chain equals the single-pass character map: `&` goes first,
      and no inserted reference contains a character a later pass rewrites. */
  lemma {:induction false} StringToHtmlIsCharMap(s: string)
    ensures StringToHtml(s) == HtmlEscapeEach(s)
  {
    if s != [] {
      assert s == [s[0]] + s[1..];
      HtmlChainAppend([s[0]], s[1..]);
      HtmlChainChar(s[0]);
      StringToHtmlIsCharMap(s[1..]);
    }
  }

  /** The characters `string_to_html` rewrites. */
  predicate HtmlSpecial(c: char) {
    c == '&' || EscapedInHtml(c)
  }

  /** The characters that never appear raw in the output. */
  predicate EscapedInHtml(c: char) {
    c == ' ' || c == '\'' || c == '"' || c == '<' || c == '>' || c == '-'
  }

  lemma {:induction false} HtmlEscapeEachNoRaw(s: string)
    ensures forall x :: x in HtmlEscapeEach(s) ==> !EscapedInHtml(x)
  {
    if s != [] {
      HtmlEscapeEachNoRaw(s[1..]);
      assert HtmlEscapeEach(s) == HtmlEscape(s[0]) + HtmlEscapeEach(s[1..]);
    }
  }

  /** The output holds no raw space, apostrophe, double quote, `<`, `>` or `-`. */
  lemma StringToHtmlNoRawSpecials(s: string)
    ensures forall x :: x in StringToHtml(s) ==> !EscapedInHtml(x)
  {
    StringToHtmlIsCharMap(s);
    HtmlEscapeEachNoRaw(s);
  }

  /** Inverse of the escaping: each of the seven references back to its character. */
  function HtmlUnescape(t: string): string
    decreases |t|
  {
    if t == [] then []
    else if "&amp;" <= t then "&" + HtmlUnescape(t[5..])
    else if "&#32;" <= t then " " + HtmlUnescape(t[5..])
    else if "&#39;" <= t then "'" + HtmlUnescape(t[5..])
    else if "&quot;" <= t then "\"" + HtmlUnescape(t[6..])
    else if "&lt;" <= t then "<" + HtmlUnescape(t[4..])
    else if "&gt;" <= t then ">" + HtmlUnescape(t[4..])
    else if "&#45;" <= t then "-" + HtmlUnescape(t[5..])
    else [t[0]] + HtmlUnescape(t[1..])
  }

  lemma UnescapeStep(c: char, t: string)
    ensures HtmlUnescape(HtmlEscape(c) + t) == [c] + HtmlUnescape(t)
  {
    var e := HtmlEscape(c);
    assert (e + t)[..|e|] == e;
    assert (e + t)[|e|..] == t;
    if !HtmlSpecial(c) {
      assert e == [c];
      assert (e + t)[0] == c && c != '&';
      assert !("&amp;" <= e + t) && !("&#32;" <= e + t) && !("&#39;" <= e + t) && !("&#45;" <= e + t);
      assert !("&quot;" <= e + t) && !("&lt;" <= e + t) && !("&gt;" <= e + t);
      assert (e + t)[1..] == t;
      assert HtmlUnescape(e + t) == [(e + t)[0]] + HtmlUnescape((e + t)[1..]);
      assert HtmlUnescape(e + t) == [c] + HtmlUnescape(t);
    } else {
      var u := e + t;
      assert u[0] == '&';
      assert u[1] == e[1] && u[2] == e[2] && u[3] == e[3];
      if c != '&' {
        assert !("&amp;" <= u);
      }
      if c != '&' && c != ' ' {
        assert !("&#32;" <= u);
      }
      if c == '"' || c == '<' || c == '>' || c == '-' {
        assert !("&#39;" <= u);
      }
      if c == '<' || c == '>' || c == '-' {
        assert !("&quot;" <= u);
      }
      if c == '>' || c == '-' {
        assert !("&lt;" <= u);
      }
      if c == '-' {
        assert !("&gt;" <= u);
      }
    }
  }

  /** Escaping loses nothing: unescaping the output gives back the input. */
  lemma {:induction false} StringToHtmlRoundTrip(s: string)
    ensures HtmlUnescape(StringToHtml(s)) == s
  {
    StringToHtmlIsCharMap(s);
    EscapeEachRoundTrip(s);
  }

  lemma {:induction false} EscapeEachRoundTrip(s: string)
    ensures HtmlUnescape(HtmlEscapeEach(s)) == s
  {
    if s != [] {
      UnescapeStep(s[0], HtmlEscapeEach(s[1..]));
      EscapeEachRoundTrip(s[1..]);
      assert s == [s[0]] + s[1..];
    }
  }

  /** `"a&b"` becomes `"a&amp;b"`, and so does every ampersand between two ordinary characters. */
  lemma StringToHtmlAmpersandExample(x: char, y: char)
    requires !HtmlSpecial(x) && !HtmlSpecial(y)
    ensures StringToHtml([x, '&', y]) == [x] + "&amp;" + [y]
  {
    var s := [x, '&', y];
    assert s == [x] + ([s[1]] + [y]);
    HtmlChainAppend([x], [s[1]] + [y]);
    HtmlChainAppend([s[1]], [y]);
    HtmlChainChar(x);
    HtmlChainChar(s[1]);
    HtmlChainChar(y);
  }

  /* ---------------- string_to_clp ---------------- */

  /** `string_to_clp`: every `"` doubled; the tilde removal on the following line is commented out. */
  function StringToClp(s: string): (r: string)
    ensures |r| == |s| + Count(s, '"')
  {
    GsubLength(s, '"', "\"\"");
    Gsub(s, '"', "\"\"")
  }

  /** Inverse of the quote doubling: each `""` pair collapses to one `"`. */
  function CollapseQuotes(t: string): string
    decreases |t|
  {
    if t == [] then []
    else if "\"\"" <= t then "\"" + CollapseQuotes(t[2..])
    else [t[0]] + CollapseQuotes(t[1..])
  }

  /** What `string_to_clp` makes of one character. */
  function ClpChar(c: char): string {
    if c == '"' then "\"\"" else [c]
  }

  lemma ClpSplit(s: string)
    requires s != []
    ensures StringToClp(s) == ClpChar(s[0]) + StringToClp(s[1..])
  {
  }

  lemma CollapseStep(c: char, t: string)
    ensures CollapseQuotes(ClpChar(c) + t) == [c] + CollapseQuotes(t)
  {
    var u := ClpChar(c) + t;
    if c == '"' {
      assert u[..2] == "\"\"" && u[2..] == t;
    } else {
      assert u[0] == c && u[1..] == t;
    }
  }

  /** Collapsing each `""` pair of the output gives back the input. */
  lemma {:induction false} StringToClpRoundTrip(s: string)
    ensures CollapseQuotes(StringToClp(s)) == s
  {
    if s != [] {
      ClpSplit(s);
      CollapseStep(s[0], StringToClp(s[1..]));
      StringToClpRoundTrip(s[1..]);
      assert s == [s[0]] + s[1..];
    }
  }

  /** Apart from the doubled quotes nothing changes: the output holds twice as many
      quotes, and with all quotes deleted both sides read the same (tildes included). */
  lemma {:induction false} StringToClpKeepsOthers(s: string)
    ensures Count(StringToClp(s), '"') == 2 * Count(s, '"')
    ensures Gsub(StringToClp(s), '"', "") == Gsub(s, '"', "")
  {
    if s != [] {
      var rest := StringToClp(s[1..]);
      var head := ClpChar(s[0]);
      ClpSplit(s);
      StringToClpKeepsOthers(s[1..]);
      CountAppend(head, rest, '"');
      GsubAppend(head, rest, '"', "");
      if s[0] == '"' {
        assert head == "\"" + "\"";
        GsubAppend("\"", "\"", '"', "");
        Gsub1('"', '"', "");
        CountAppend("\"", "\"", '"');
      } else {
        Gsub1(s[0], '"', "");
      }
    }
  }
}

=== FILE: strings.dfy ===
/**
 Character classes and the one text-rewriting primitive the cut-list
 utilities are built from: Ruby's `gsub` with a one-character class
 (`/[&]/`, `/["]/`, `/[~]/`, `/[.]/`), which replaces every occurrence of
 one character by a fixed replacement text.
 */
module Strings {

  /** Ruby's `\d` on ASCII text. */
  predicate IsDigit(c: char) {
    '0' <= c <= '9'
  }

  /** Ruby's `\s` on ASCII text (Ruby 2.2 and later): space, tab, line feed, vertical tab,
      form feed, carriage return. */
  predicate IsSpace(c: char) {
    c == ' ' || '\t' <= c <= '\r'
  }

  predicate AllDigits(s: string) {
    forall i :: 0 <= i < |s| ==> IsDigit(s[i])
  }

  predicate NoDigits(s: string) {
    forall i :: 0 <= i < |s| ==> !IsDigit(s[i])
  }

  /** Number of occurrences of `c` in `s`. */
  function Count(s: string, c: char): (n: nat)
    ensures n <= |s|
    ensures n == 0 <==> c !in s
  {
    if s == [] then 0 else (if s[0] == c then 1 else 0) + Count(s[1..], c)
  }

  /** `s` with every occurrence of `c` replaced by `rep` (`s.gsub(/[c]/, rep)`). */
  function Gsub(s: string, c: char, rep: string): (r: string)
    ensures c !in s ==> r == s
    ensures c !in rep ==> c !in r
  {
    if s == [] then []
    else (if s[0] == c then rep else [s[0]]) + Gsub(s[1..], c, rep)
  }

  /** Each occurrence of `c` grows into `|rep|` characters. */
  lemma {:induction false} GsubLength(s: string, c: char, rep: string)
    ensures |Gsub(s, c, rep)| + Count(s, c) == |s| + Count(s, c) * |rep|
  {
    if s != [] {
      GsubLength(s[1..], c, rep);
      var g, n := Gsub(s[1..], c, rep), Count(s[1..], c);
      if s[0] == c {
        assert Count(s, c) == n + 1;
        assert (n + 1) * |rep| == n * |rep| + |rep|;
        assert |Gsub(s, c, rep)| == |rep| + |g|;
      } else {
        assert Count(s, c) == n;
        assert |Gsub(s, c, rep)| == 1 + |g|;
      }
    }
  }

  /** Characters other than `c` and those of `rep` neither appear nor vanish. */
  lemma {:induction false} GsubKeeps(s: string, c: char, rep: string, x: char)
    requires x != c && x !in rep
    ensures x in Gsub(s, c, rep) <==> x in s
  {
    if s != [] {
      GsubKeeps(s[1..], c, rep, x);
      assert s == [s[0]] + s[1..];
    }
  }

  lemma Gsub1(x: char, c: char, rep: string)
    ensures Gsub([x], c, rep) == if x == c then rep else [x]
  {
    assert [x][1..] == [];
  }

  /** `gsub` distributes over concatenation. */
  lemma {:induction false} GsubAppend(a: string, b: string, c: char, rep: string)
    ensures Gsub(a + b, c, rep) == Gsub(a, c, rep) + Gsub(b, c, rep)
  {
    if a == [] {
      assert a + b == b;
    } else {
      assert (a + b)[0] == a[0];
      assert (a + b)[1..] == a[1..] + b;
      GsubAppend(a[1..], b, c, rep);
    }
  }

  /** Replacing a character by a single character is a pointwise map. */
  lemma {:induction false} GsubPointwise(s: string, c: char, d: char)
    ensures |Gsub(s, c, [d])| == |s|
    ensures forall i :: 0 <= i < |s| ==> Gsub(s, c, [d])[i] == if s[i] == c then d else s[i]
  {
    if s != [] {
      GsubPointwise(s[1..], c, d);
    }
  }

  lemma {:induction false} CountAppend(a: string, b: string, c: char)
    ensures Count(a + b, c) == Count(a, c) + Count(b, c)
  {
    if a == [] {
      assert a + b == b;
    } else {
      assert (a + b)[0] == a[0];
      assert (a + b)[1..] == a[1..] + b;
      CountAppend(a[1..], b, c);
    }
  }

  /** Some `sep` in `s` sits between two digits: the regex `/(\d+)(sep)(\d+)/` finds a match. */
  predicate SeparatesDigits(s: string, sep: char) {
    exists i :: 0 < i < |s| - 1 && s[i] == sep && IsDigit(s[i - 1]) && IsDigit(s[i + 1])
  }
}

=== FILE: wrappers.dfy ===
/** The optional value used wherever the source returns `nil` for "not found". */
module Wrappers {
  datatype Option<+T> = None | Some(value: T)
}
